=== FILE: README.md ===
# Command-file job dispatcher — Dafny model

This project models the coordination logic of a small job dispatcher,
`python_server3.py`. The service watches a directory for command files. Each
file holds one line, `start <group> <job>` or `stop <group> <job>`. The
dispatcher keeps a registry that maps the job key `<group>_<job>` to the handle
of the work it submitted to a worker pool. A resource gate refuses new work
while CPU or memory load is at or above 90%.

Three pieces of the `CommandProcessor` and `ResourceManager` classes are
modelled as pure functions. Every I/O result they depend on is passed in as a
parameter:

- **Tokens**: Python's argument-less `str.split()`. This is the parser of
  `handle_command`.
- **ResourceGate**: `is_resource_available`. The two load percentages are
  parameters of type `real`.
- **Dispatch**: one `handle_command` step over an immutable
  `map<string, H>` registry. `H` is the opaque handle type. Each request
  carries three answers from the outside world:
  - the load sample;
  - the handle `submit` would return;
  - the boolean `cancel()` would return.

  Each effect records:
  - the new registry;
  - the submission made;
  - whether the gate was sampled;
  - which handle was asked to cancel;
  - whether the command file was removed.
- **DispatchRuns**: the registry threaded through a sequence of
  `handle_command` steps.
- **Intake**: the set-difference body of `monitor_folder`. It is given both
  as a function and as the source's loop. A multi-poll run builds the
  command queue.
- **Scenarios**: worked command files against concrete registries.

Behaviour worth noting:

- A three-token line whose verb is neither `start` nor `stop` is consumed.
  It falls through both branches, and the file is deleted with the registry
  unchanged (python_server3.py:78-101). This is the `UnknownVerb` outcome.
- `stop` calls `cancel()` before it removes the entry
  (python_server3.py:92-97). The entry is removed whatever `cancel()`
  answered.
- Job keys are plain concatenation with `_`, so they are not injective.
  `("a_b", "c")` and `("a", "b_c")` share a key, and the model keeps this
  (`KeyCollision`, `CollidingStartRefused`).

## Model

| member | source | states |
|---|---|---|
| Tokens.Split | python_server3.py:75 | every token that `split()` produces is non-empty and contains no whitespace character |
| Tokens.SplitJoin | python_server3.py:75 | round trip: whitespace-free words joined with single blanks split back into exactly those words |
| Tokens.SplitKeepsInk | python_server3.py:75 | splitting loses only whitespace: the tokens concatenated are the line's non-whitespace characters, in order |
| Tokens.SplitEmptyIffBlank | python_server3.py:75 | a line yields no tokens if and only if it is all whitespace |
| Dispatch.Parse | python_server3.py:75 | the three-name unpacking succeeds if and only if the line has exactly three tokens; then verb, group and job are whitespace-free words that together hold every non-whitespace character of the line, in order |
| Dispatch.ParseJoin | python_server3.py:75 | round trip: any verb, group and job without whitespace, written on one line separated by single blanks, parse back into exactly that command |
| Dispatch.JobKey | python_server3.py:76 | the key is the group, then one `_`, then the job name |
| Dispatch.KeyCollision | python_server3.py:76 | the key is not injective: two different (group, job) pairs give the same key |
| Dispatch.KeyInjectiveWithoutUnderscore | python_server3.py:76 | when neither group name contains `_`, equal keys mean equal (group, job) pairs |
| Dispatch.Handle | python_server3.py:73-106 | without exactly three tokens: nothing changes and the file is kept. With three tokens: the file is always deleted. `start` on a present key: map unchanged, nothing submitted, gate not sampled. `start` on an absent key: with the gate open, adds exactly that key mapped to the new handle and submits (group, job); with the gate shut, changes nothing. `stop` on a present key: removes it whatever `cancel()` returned, and asks the stored handle to cancel. `stop` on an absent key: changes nothing. Any other verb: changes nothing |
| Dispatch.StepFrame | python_server3.py:79-97 | per key: a registered key disappears only through a stop addressed to it; a key gains a handle only through a start addressed to it that found it free |
| Dispatch.GateOnlyForFreeStart | python_server3.py:78-87 | the load sample has no influence on any outcome other than a start on a free key |
| Dispatch.CancelResultOnlyLogged | python_server3.py:88-97 | what `cancel()` answers changes only the reported outcome, never the registry, the submission or the file |
| ResourceGate.Available | python_server3.py:21-27 | the gate admits if and only if the larger of the CPU and memory percentages is strictly below 90 |
| ResourceGate.AvailableMonotone | python_server3.py:27 | lower load on both figures never turns an admission into a refusal |
| ResourceGate.ThresholdRefuses | python_server3.py:21-27 | the comparison is strict: exactly 90 on either figure refuses |
| ResourceGate.BusyCpuRefuses | python_server3.py:23-27 | CPU at 95% refuses whatever the memory figure |
| DispatchRuns.StaysRegistered | python_server3.py:79-97 | over a sequence of commands, a registered key stays registered until a stop addressed to it |
| DispatchRuns.NoDoubleStart | python_server3.py:79-82 | between two submissions under the same key there is always a stop that removed that key |
| DispatchRuns.RegisteredWasStarted | python_server3.py:79-97 | every registered handle under a key that was not registered at the start is the handle of an earlier submission under its key |
| DispatchRuns.HandleOrigin | python_server3.py:79-97 | every registered handle is either the one its key held at the start, still undisturbed, or the handle of an earlier submission under its key; a key stopped and started again holds the new submission's handle |
| DispatchRuns.StopThenStart | python_server3.py:79-97 | a stop is authoritative: even when cancellation fails, the next start for the same pair on an idle machine submits again |
| DispatchRuns.CollidingStartRefused | python_server3.py:76-87 | a start for one pair is refused as already running while a different pair with the same key is registered |
| Intake.Batch | python_server3.py:45-53 | a poll never enqueues a name already seen, enqueues only listed names, and enqueues nothing when the listing failed |
| Intake.Poll | python_server3.py:45-53 | the source's loop, in any visiting order: each name is enqueued at most once; the enqueued names are exactly the listed regular files not seen before; the new seen set is the old one plus them; non-regular entries are not remembered |
| Intake.SeenGrows | python_server3.py:53 | the seen set never shrinks over a sequence of polls |
| Intake.EnqueuedAtMostOnce | python_server3.py:45-53 | no two polls of a sequence enqueue the same name, and no poll enqueues a name seen at the start |
| Intake.ListedFileEnqueued | python_server3.py:45-53 | a regular file listed by some poll, and not seen at the start, has been enqueued by that poll or an earlier one |
| Intake.FromSeenToBatch | python_server3.py:45-53 | every name in the seen set, beyond the initial ones, came from the batch of some earlier poll |
| Intake.NonFileNotRemembered | python_server3.py:49-53 | an unseen entry that is not a regular file is neither enqueued nor added to the seen set |
| Intake.RunIntake | python_server3.py:42-56 | the queue built by successive polls never holds a name twice and holds nothing seen at the start; with the initial seen set it makes up the final seen set; it is first in, first out across polls: a name first found by an earlier poll sits before every name first found by a later one |
| Scenarios.FreshStart | python_server3.py:75-83 | `start groupA job1` on an idle machine with an empty registry registers `groupA_job1`, submits (groupA, job1) and deletes the file |
| Scenarios.RepeatedStart | python_server3.py:79-87 | the same start while registered: already running, no submission, gate not sampled, file deleted |
| Scenarios.BusyStart | python_server3.py:80-85 | CPU at 95%: no submission, registry unchanged, file deleted |
| Scenarios.StopUnknownJob | python_server3.py:88-101 | a stop for an unregistered job: not found, nothing cancelled, registry unchanged, file deleted |
| Scenarios.StopRunningJob | python_server3.py:88-101 | a stop whose cancellation fails still empties the registration, and the file is deleted |
| Scenarios.OneWordFileKept | python_server3.py:75 | a one-word file is malformed: registry unchanged, file kept |
| Scenarios.UnknownVerbConsumed | python_server3.py:78-101 | a three-word file with an unknown verb: registry unchanged, nothing submitted, file deleted |

## Left out

- Logging and `print` (python_server3.py:11-16, 26, 52, 63 and the log calls in `handle_command`). Their only trace in the model is the `Outcome` value.
- Load sampling with `psutil` (python_server3.py:24-25). The two percentages are inputs. Floating point is modelled as `real`.
- The worker pool, `future.cancel()` and `run_script`/`subprocess.run` (python_server3.py:36, 81, 92, 108-117). The handle is an opaque type parameter. The answers of `submit` and `cancel()` are inputs. The worker program is external.
- Threads, the lock, the blocking queue with its timeout, the `running` flag, `stop()` and `main()` (python_server3.py:34-38, 43, 56, 58-71, 119-152). These are concurrency and process lifecycle. The model is sequential: one poll or one command at a time.
- Filesystem calls (`os.listdir`, `os.path.isfile`, `open`, `os.remove`). Their results are inputs, and deletion is the `fileDeleted` flag.
- A failing `os.remove` after the registry was already changed is not modelled.
- Dispatch.Handle: the load sample (python_server3.py:24-25) and `submit` (python_server3.py:81) are always answered. In the source either may raise, for example `BrokenProcessPool` after a worker died or `RuntimeError` once `stop()` shut the pool down (python_server3.py:119-121). The `except Exception` at python_server3.py:105-106 then catches it before the `os.remove` at :101, so the file is kept and the registry is unchanged. The model does not state this path.
- The reading and `strip()` of the command file in `process_commands` (python_server3.py:64-65) are outside `handle_command`. The model takes the line as given.
- The `except ValueError` handler (python_server3.py:103-104) reads the unbound name `command`. This raises an error that is caught at python_server3.py:69. Its only effect is a different log message: the file is kept, which `Handle` states.
- The full path `os.path.join(folder, name)` put on the queue (python_server3.py:48). The queue holds the entry names. The watched folder is fixed, so each name has exactly one path.
- The order of names within one poll (python_server3.py:47) comes from iterating a Python set. `Intake.Poll` picks them in any order, and its contract holds for every order.
- Reclaiming registry entries of finished jobs. The source never does it, and neither does the model.

=== FILE: dispatch.dfy ===
/** One step of the dispatcher: `CommandProcessor.handle_command` in
    python_server3.py. A command line is cut into tokens, the job key is
    derived, and the start/stop rules update the job registry, a finite map
    from job key to the opaque handle of the submitted work.

    Everything the step would learn from the outside world is an input of the
    `Request`: the gate's load sample, the handle the worker pool would hand
    back on submission, and what `cancel()` on the stored handle would
    answer. Everything it does to the outside world is a field of the
    `Effect`: the new registry, the submission made, whether the gate was
    sampled, which handle was asked to cancel, and whether the command file
    was removed. */
module Dispatch {
  import opened Wrappers
  import opened Tokens
  import opened ResourceGate

  /** A command line that split into exactly three tokens. */
  datatype Command = Command(verb: string, folder: string, filename: string)

  /** What the step reports; one variant per way the step can end. */
  datatype Outcome =
    | Started             // work submitted and registered
    | AlreadyRunning      // start on a registered key
    | ResourceUnavailable // start refused by the gate
    | Stopped             // stop on a registered key, cancel() said yes
    | StopFailed          // stop on a registered key, cancel() said no
    | NotFound            // stop on an unregistered key
    | UnknownVerb         // three tokens, verb neither start nor stop
    | Malformed           // not three tokens: the unpacking failed

  /** The arguments handed to the worker program. */
  datatype Submission = Submission(folder: string, filename: string)

  /** One command to handle together with the answers the outside world gives
      if it is asked. */
  datatype Request<H> = Request(line: string, load: Sample, handle: H, cancelled: bool)

  datatype Effect<H> = Effect(
    jobs: map<string, H>,
    outcome: Outcome,
    submitted: Option<Submission>,
    gateSampled: bool,
    cancelAsked: Option<H>,
    fileDeleted: bool)

  /** Tuple unpacking of the split line into exactly three names. When it
      succeeds, the three names are whitespace-free words that together hold
      every non-whitespace character of the line, in order. */
  function Parse(line: string): (r: Option<Command>)
    ensures r.Some? <==> |Split(line)| == 3
    ensures r.Some? ==> Split(line) == [r.value.verb, r.value.folder, r.value.filename]
    ensures r.Some? ==>
      && IsWord(r.value.verb) && IsWord(r.value.folder) && IsWord(r.value.filename)
      && Ink(line) == r.value.verb + r.value.folder + r.value.filename
  {
    var w := Split(line);
    if |w| == 3 then
      SplitKeepsInk(line);
      ConcatThree(w);
      Some(Command(w[0], w[1], w[2]))
    else None
  }

  lemma ConcatThree(w: seq<string>)
    requires |w| == 3
    ensures Concat(w) == w[0] + w[1] + w[2]
  {
    assert w[1..][1..][1..] == [];
    assert Concat(w[1..][1..]) == w[2] + [];
    assert Concat(w[1..]) == w[1] + w[2];
  }

  /** Round trip: a verb, group and job written on one line with single
      blanks parse back into exactly that command. */
  lemma ParseJoin(verb: string, folder: string, filename: string)
    requires IsWord(verb) && IsWord(folder) && IsWord(filename)
    ensures Parse(Join([verb, folder, filename])) == Some(Command(verb, folder, filename))
  {
    SplitJoin([verb, folder, filename]);
  }

  /** The registry key: group and job name glued with an underscore. */
  function JobKey(folder: string, filename: string): (k: string)
    ensures |k| == |folder| + 1 + |filename|
    ensures k[..|folder|] == folder && k[|folder|] == '_' && k[|folder| + 1..] == filename
  {
    folder + "_" + filename
  }

  /** The key a command line addresses, if it parses. */
  function KeyOf(line: string): Option<string>
  {
    match Parse(line)
    case None => None
    case Some(c) => Some(JobKey(c.folder, c.filename))
  }

  /** Handles one command line against the registry `jobs`. */
  function Handle<H>(req: Request<H>, jobs: map<string, H>): (e: Effect<H>)
    // Token count: anything but three tokens changes nothing and keeps the file.
    ensures |Split(req.line)| != 3 ==>
      e == Effect(jobs, Malformed, None, false, None, false)
    // Every three-token line consumes its file, whatever the outcome.
    ensures |Split(req.line)| == 3 ==> e.fileDeleted
    // Only `start` on a free key with an idle machine submits, and then it
    // registers the new handle under the derived key and touches nothing else.
    ensures e.submitted.Some? <==> e.outcome == Started
    ensures e.outcome == Started ==>
      var w := Split(req.line);
      && w[0] == "start"
      && e.submitted == Some(Submission(w[1], w[2]))
      && JobKey(w[1], w[2]) !in jobs
      && Available(req.load)
      && e.jobs == jobs[JobKey(w[1], w[2]) := req.handle]
    // The gate is sampled only by a `start` whose key is free.
    ensures e.gateSampled <==> e.outcome in {Started, ResourceUnavailable}
    // Cancellation is requested only by a `stop` on a registered key, and
    // then always on the handle stored under it.
    ensures e.cancelAsked.Some? <==> e.outcome in {Stopped, StopFailed}
    ensures |Split(req.line)| == 3 ==>
      var w := Split(req.line);
      var key := JobKey(w[1], w[2]);
      && (w[0] == "start" ==>
            && (key in jobs ==> e.outcome == AlreadyRunning && e.jobs == jobs)
            && (key !in jobs && Available(req.load) ==> e.outcome == Started)
            && (key !in jobs && !Available(req.load) ==>
                  e.outcome == ResourceUnavailable && e.jobs == jobs))
      && (w[0] == "stop" ==>
            && (key in jobs ==>
                  && e.jobs == jobs - {key}
                  && e.cancelAsked == Some(jobs[key])
                  && e.outcome == (if req.cancelled then Stopped else StopFailed))
            && (key !in jobs ==> e.outcome == NotFound && e.jobs == jobs))
      && (w[0] != "start" && w[0] != "stop" ==>
            e.outcome == UnknownVerb && e.jobs == jobs)
  {
    match Parse(req.line)
    case None => Effect(jobs, Malformed, None, false, None, false)
    case Some(cmd) =>
      var key := JobKey(cmd.folder, cmd.filename);
      if cmd.verb == "start" then
        if key in jobs then
          Effect(jobs, AlreadyRunning, None, false, None, true)
        else if Available(req.load) then
          Effect(jobs[key := req.handle], Started,
                 Some(Submission(cmd.folder, cmd.filename)), true, None, true)
        else
          Effect(jobs, ResourceUnavailable, None, true, None, true)
      else if cmd.verb == "stop" then
        if key in jobs then
          Effect(jobs - {key}, if req.cancelled then Stopped else StopFailed,
                 None, false, Some(jobs[key]), true)
        else
          Effect(jobs, NotFound, None, false, None, true)
      else
        Effect(jobs, UnknownVerb, None, false, None, true)
  }

  /** What one step can do to a single key: a registered key disappears only
      through a `stop` addressed to it, and a key gains or changes its handle
      only through a `Started` addressed to it, which requires it to have
      been free. */
  lemma StepFrame<H>(req: Request<H>, jobs: map<string, H>, k: string)
    ensures var e := Handle(req, jobs);
      && (k in jobs && k !in e.jobs ==>
            e.outcome in {Stopped, StopFailed} && KeyOf(req.line) == Some(k))
      && (k in e.jobs ==>
            || (k in jobs && e.jobs[k] == jobs[k])
            || (&& e.outcome == Started && KeyOf(req.line) == Some(k)
                && k !in jobs && e.jobs[k] == req.handle))
  {
    match Parse(req.line)
    case None =>
    case Some(cmd) =>
      var key := JobKey(cmd.folder, cmd.filename);
      assert KeyOf(req.line) == Some(key);
      if cmd.verb == "start" && key !in jobs && Available(req.load) {
        assert Handle(req, jobs).jobs == jobs[key := req.handle];
      } else if cmd.verb == "stop" && key in jobs {
        assert Handle(req, jobs).jobs == jobs - {key};
      } else {
        assert Handle(req, jobs).jobs == jobs;
      }
  }

  /** The gate is consulted only by a `start` on a free key: in every other
      case the load sample has no influence on anything the step does. */
  lemma GateOnlyForFreeStart<H>(req: Request<H>, jobs: map<string, H>, other: Sample)
    requires Handle(req, jobs).outcome !in {Started, ResourceUnavailable}
    ensures Handle(req.(load := other), jobs) == Handle(req, jobs)
  {
  }

  /** What `cancel()` answers only changes which message is logged: the
      registry, the submission and the file are the same either way. */
  lemma CancelResultOnlyLogged<H>(req: Request<H>, jobs: map<string, H>)
    ensures var e, e' := Handle(req, jobs), Handle(req.(cancelled := !req.cancelled), jobs);
      && e'.jobs == e.jobs && e'.submitted == e.submitted
      && e'.cancelAsked == e.cancelAsked && e'.fileDeleted == e.fileDeleted
  {
  }

  /** The key is not injective: a group name may itself contain the
      underscore, so two different (group, job) pairs can share a key. */
  lemma KeyCollision()
    ensures JobKey("a_b", "c") == JobKey("a", "b_c")
    ensures ("a_b", "c") != ("a", "b_c")
  {
  }

  /** When no group name contains an underscore, the key determines the
      pair it came from. */
  lemma KeyInjectiveWithoutUnderscore(f1: string, n1: string, f2: string, n2: string)
    requires '_' !in f1 && '_' !in f2
    requires JobKey(f1, n1) == JobKey(f2, n2)
    ensures f1 == f2 && n1 == n2
  {
  }
}

=== FILE: gate.dfy ===
/** The resource gate (`ResourceManager` in python_server3.py): admission
    control that lets new work start only while the machine is not loaded.
    The CPU and memory utilisation percentages are sampled by the caller and
    passed in; sampling itself is not modelled. */
module ResourceGate {

  /** Utilisation percentage at or above which new work is refused. */
  const Threshold: real := 90.0

  /** One reading of the two load figures, in percent. */
  datatype Sample = Sample(cpu: real, memory: real)

  function Max(a: real, b: real): real
  {
    if a < b then b else a
  }

  /** The gate's verdict on a reading. */
  function Available(s: Sample): (ok: bool)
    ensures ok <==> Max(s.cpu, s.memory) < Threshold
  {
    s.cpu < Threshold && s.memory < Threshold
  }

  /** Lower load never turns an admission into a refusal. */
  lemma AvailableMonotone(busy: Sample, idle: Sample)
    requires idle.cpu <= busy.cpu && idle.memory <= busy.memory
    ensures Available(busy) ==> Available(idle)
  {
  }

  /** The comparison is strict: a reading of exactly the threshold on either
      figure refuses, whatever the other figure says. */
  lemma ThresholdRefuses(other: real)
    ensures !Available(Sample(Threshold, other))
    ensures !Available(Sample(other, Threshold))
  {
  }

  /** CPU sampled at 95% refuses new work, however idle memory is. */
  lemma BusyCpuRefuses(memory: real)
    ensures !Available(Sample(95.0, memory))
  {
  }
}

=== FILE: intake.dfy ===
/** Command intake: the polling body of `CommandProcessor.monitor_folder` in
    python_server3.py. Each poll lists the watched directory, takes the
    names not seen before, and for each one that is a regular file puts it
    on the command queue and remembers it. The seen set only grows, so a
    name is enqueued at most once over the life of the loop, even when it
    stays in the directory for many polls.

    The directory listing is an input: for every entry its name and whether
    it is a regular file, or `None` when listing the directory failed. */
module Intake {
  import opened Wrappers

  /** One directory listing: entry name to "is a regular file". */
  type Listing = map<string, bool>

  /** The distinct elements of a sequence. */
  function Elems(s: seq<string>): set<string>
  {
    set i | 0 <= i < |s| :: s[i]
  }

  predicate Distinct(s: seq<string>)
  {
    forall i, j :: 0 <= i < j < |s| ==> s[i] != s[j]
  }

  /** The names one poll enqueues, in no particular order: regular files of
      the listing that were not seen before. A failed listing enqueues
      nothing. */
  function Batch(listing: Option<Listing>, seen: set<string>): (b: set<string>)
    ensures b !! seen
    ensures listing.None? ==> b == {}
    ensures listing.Some? ==> b <= listing.value.Keys
  {
    match listing
    case None => {}
    case Some(l) => set n | n in l && n !in seen && l[n]
  }

  /** The seen set after one poll. */
  function PollSeen(listing: Option<Listing>, seen: set<string>): set<string>
  {
    seen + Batch(listing, seen)
  }

  /** One poll, as the source runs it: the new names are fixed first, then
      visited one at a time in whatever order the set yields them. Returns
      the names put on the queue, in queue order, and the new seen set. */
  method Poll(listing: Option<Listing>, seen: set<string>) returns (enqueued: seq<string>, seen': set<string>)
    ensures Distinct(enqueued)
    ensures forall n :: n in Elems(enqueued) <==>
      listing.Some? && n in listing.value && listing.value[n] && n !in seen
    ensures Elems(enqueued) == Batch(listing, seen)
    ensures seen' == PollSeen(listing, seen)
    ensures listing.Some? ==>
      forall n :: n in listing.value && !listing.value[n] ==> (n in seen' <==> n in seen)
  {
    enqueued, seen' := [], seen;
    if listing.None? {
      return;
    }
    var l := listing.value;
    var pending := l.Keys - seen;
    while pending != {}
      invariant pending <= l.Keys - seen
      invariant Distinct(enqueued)
      invariant forall i :: 0 <= i < |enqueued| ==> enqueued[i] !in pending
      invariant Elems(enqueued) == set n | n in l && n !in seen && n !in pending && l[n]
      invariant seen' == seen + Elems(enqueued)
      decreases pending
    {
      var f :| f in pending;
      if l[f] {
        ElemsSnoc(enqueued, f);
        enqueued := enqueued + [f];
        seen' := seen' + {f};
      }
      pending := pending - {f};
    }
    assert Elems(enqueued) == Batch(listing, seen);
  }

  lemma ElemsSnoc(s: seq<string>, x: string)
    ensures Elems(s + [x]) == Elems(s) + {x}
  {
    assert (s + [x])[|s|] == x;
    assert forall i :: 0 <= i < |s| ==> (s + [x])[i] == s[i];
  }

  /** The seen set after a sequence of polls, starting from `seen0`. */
  function SeenAfter(polls: seq<Option<Listing>>, seen0: set<string>): set<string>
  {
    if polls == [] then seen0
    else PollSeen(polls[|polls| - 1], SeenAfter(polls[..|polls| - 1], seen0))
  }

  /** The names enqueued by the `i`-th poll of a sequence. */
  function BatchAt(polls: seq<Option<Listing>>, seen0: set<string>, i: nat): set<string>
    requires i < |polls|
  {
    Batch(polls[i], SeenAfter(polls[..i], seen0))
  }

  lemma SeenAfterStep(polls: seq<Option<Listing>>, seen0: set<string>, i: nat)
    requires i < |polls|
    ensures SeenAfter(polls[..i + 1], seen0) == SeenAfter(polls[..i], seen0) + BatchAt(polls, seen0, i)
  {
    assert polls[..i + 1][..i] == polls[..i];
  }

  /** The seen set never shrinks. */
  lemma {:induction false} SeenGrows(polls: seq<Option<Listing>>, seen0: set<string>, i: nat, j: nat)
    requires i <= j <= |polls|
    ensures seen0 <= SeenAfter(polls[..i], seen0) <= SeenAfter(polls[..j], seen0)
    decreases j
  {
    if j == 0 {
      assert polls[..0] == [];
    } else {
      SeenAfterStep(polls, seen0, j - 1);
      if i < j {
        SeenGrows(polls, seen0, i, j - 1);
      } else {
        SeenGrows(polls, seen0, 0, j - 1);
      }
    }
  }

  /** Each name is enqueued at most once over any sequence of polls: no two
      polls enqueue the same name, and nothing already seen at the start is
      enqueued again. */
  lemma EnqueuedAtMostOnce(polls: seq<Option<Listing>>, seen0: set<string>, i: nat, j: nat)
    requires i < j < |polls|
    ensures BatchAt(polls, seen0, i) !! BatchAt(polls, seen0, j)
    ensures BatchAt(polls, seen0, i) !! seen0
  {
    SeenAfterStep(polls, seen0, i);
    SeenGrows(polls, seen0, i, i + 1);
    SeenGrows(polls, seen0, i + 1, j);
  }

  /** Conversely, a regular file that is listed by some poll has been
      enqueued by that poll or an earlier one, unless it was seen at the
      start. */
  lemma {:induction false} ListedFileEnqueued(polls: seq<Option<Listing>>, seen0: set<string>,
                                              i: nat, n: string)
    requires i < |polls| && polls[i].Some?
    requires n in polls[i].value && polls[i].value[n]
    requires n !in seen0
    ensures exists l :: 0 <= l <= i && n in BatchAt(polls, seen0, l)
    decreases i
  {
    SeenAfterStep(polls, seen0, i);
    if n !in BatchAt(polls, seen0, i) {
      FromSeenToBatch(polls, seen0, i, n);
    }
  }

  /** Every name seen after `k` polls, beyond the initial ones, came from the
      batch of one of those polls. */
  lemma {:induction false} FromSeenToBatch(polls: seq<Option<Listing>>, seen0: set<string>,
                                           k: nat, n: string)
    requires k <= |polls|
    requires n in SeenAfter(polls[..k], seen0) && n !in seen0
    ensures exists l :: 0 <= l < k && n in BatchAt(polls, seen0, l)
    decreases k
  {
    if k > 0 {
      SeenAfterStep(polls, seen0, k - 1);
      if n !in BatchAt(polls, seen0, k - 1) {
        FromSeenToBatch(polls, seen0, k - 1, n);
      }
    }
  }

  /** An entry that is not a regular file is neither enqueued nor remembered,
      so it is still eligible if it later shows up as a regular file. */
  lemma NonFileNotRemembered(listing: Listing, seen: set<string>, n: string)
    requires n in listing && !listing[n] && n !in seen
    ensures n !in Batch(Some(listing), seen)
    ensures n !in PollSeen(Some(listing), seen)
  {
  }

  lemma DistinctAppend(a: seq<string>, b: seq<string>)
    requires Distinct(a) && Distinct(b) && Elems(a) !! Elems(b)
    ensures Distinct(a + b)
    ensures Elems(a + b) == Elems(a) + Elems(b)
  {
    forall i, j | 0 <= i < j < |a + b|
      ensures (a + b)[i] != (a + b)[j]
    {
      if j >= |a| && i < |a| {
        assert (a + b)[i] in Elems(a);
        assert (a + b)[j] == b[j - |a|];
        assert (a + b)[j] in Elems(b);
      }
    }
    var ab := a + b;
    forall x | x in Elems(a) + Elems(b)
      ensures x in Elems(ab)
    {
      if x in Elems(a) {
        var i :| 0 <= i < |a| && a[i] == x;
        assert ab[i] == x;
      } else {
        var i :| 0 <= i < |b| && b[i] == x;
        assert ab[|a| + i] == x;
      }
    }
  }

  /** The intake loop over a sequence of polls: the command queue it builds
      never holds a name twice, holds nothing seen at the start, and together
      with the initial seen set is exactly the final seen set. The queue is
      first in, first out across polls: a name first found by an earlier poll
      sits before every name first found by a later one. */
  method RunIntake(polls: seq<Option<Listing>>, seen0: set<string>) returns (queue: seq<string>, seen: set<string>)
    ensures Distinct(queue)
    ensures Elems(queue) !! seen0
    ensures seen == seen0 + Elems(queue)
    ensures seen == SeenAfter(polls, seen0)
    ensures forall k, i, j ::
      (0 <= k <= |polls| && 0 <= i < |queue| && 0 <= j < |queue|
       && queue[j] in SeenAfter(polls[..k], seen0) && queue[i] !in SeenAfter(polls[..k], seen0))
      ==> j < i
  {
    queue, seen := [], seen0;
    var p := 0;
    while p < |polls|
      invariant 0 <= p <= |polls|
      invariant Distinct(queue)
      invariant Elems(queue) !! seen0
      invariant seen == seen0 + Elems(queue)
      invariant seen == SeenAfter(polls[..p], seen0)
      invariant forall k, i, j ::
        (0 <= k <= p && 0 <= i < |queue| && 0 <= j < |queue|
         && queue[j] in SeenAfter(polls[..k], seen0) && queue[i] !in SeenAfter(polls[..k], seen0))
        ==> j < i
    {
      var batch, seen' := Poll(polls[p], seen);
      SeenAfterStep(polls, seen0, p);
      DistinctAppend(queue, batch);
      forall k | 0 <= k <= p
        ensures SeenAfter(polls[..k], seen0) <= seen
      {
        SeenGrows(polls, seen0, k, p);
      }
      var queue' := queue + batch;
      forall k, i, j | 0 <= k <= p + 1 && 0 <= i < |queue'| && 0 <= j < |queue'|
          && queue'[j] in SeenAfter(polls[..k], seen0) && queue'[i] !in SeenAfter(polls[..k], seen0)
        ensures j < i
      {
        if k == p + 1 {
          assert false;
        } else if j >= |queue| {
          assert false;
        }
      }
      queue, seen := queue', seen';
      p := p + 1;
    }
    assert polls[..p] == polls;
  }
}

=== FILE: runs.dfy ===
/** The dispatcher over a whole sequence of command files: the registry
    threaded through successive `handle_command` steps, in the order the
    files are taken from the queue. These lemmas are the sequential form of
    the registry's guarantees: at most one live handle per key, a stop is
    authoritative even when cancellation fails, and every registered handle
    came from a submission. */
module DispatchRuns {
  import opened Wrappers
  import opened Tokens
  import opened ResourceGate
  import opened Dispatch

  /** The registry just before the `n`-th request is handled. */
  function JobsBefore<H>(reqs: seq<Request<H>>, jobs0: map<string, H>, n: nat): map<string, H>
    requires n <= |reqs|
  {
    if n == 0 then jobs0 else Handle(reqs[n - 1], JobsBefore(reqs, jobs0, n - 1)).jobs
  }

  /** What handling the `i`-th request does. */
  function EffectAt<H>(reqs: seq<Request<H>>, jobs0: map<string, H>, i: nat): Effect<H>
    requires i < |reqs|
  {
    Handle(reqs[i], JobsBefore(reqs, jobs0, i))
  }

  /** The `i`-th request submitted work under key `k`. */
  predicate StartsAt<H>(reqs: seq<Request<H>>, jobs0: map<string, H>, i: nat, k: string)
    requires i < |reqs|
  {
    EffectAt(reqs, jobs0, i).outcome == Started && KeyOf(reqs[i].line) == Some(k)
  }

  /** The `i`-th request removed key `k` from the registry. */
  predicate StopsAt<H>(reqs: seq<Request<H>>, jobs0: map<string, H>, i: nat, k: string)
    requires i < |reqs|
  {
    EffectAt(reqs, jobs0, i).outcome in {Stopped, StopFailed} && KeyOf(reqs[i].line) == Some(k)
  }

  /** A registered key stays registered until a stop addressed to it. */
  lemma {:induction false} StaysRegistered<H>(reqs: seq<Request<H>>, jobs0: map<string, H>,
                                               k: string, i: nat, j: nat)
    requires i <= j <= |reqs|
    requires k in JobsBefore(reqs, jobs0, i)
    requires forall l :: i <= l < j ==> !StopsAt(reqs, jobs0, l, k)
    ensures k in JobsBefore(reqs, jobs0, j)
    decreases j
  {
    if j > i {
      StaysRegistered(reqs, jobs0, k, i, j - 1);
      var before := JobsBefore(reqs, jobs0, j - 1);
      assert k in before;
      assert !StopsAt(reqs, jobs0, j - 1, k);
      assert EffectAt(reqs, jobs0, j - 1) == Handle(reqs[j - 1], before);
      StepKeeps(reqs[j - 1], before, k);
      assert JobsBefore(reqs, jobs0, j) == Handle(reqs[j - 1], before).jobs;
    }
  }

  lemma StepKeeps<H>(req: Request<H>, jobs: map<string, H>, k: string)
    requires k in jobs
    requires !(Handle(req, jobs).outcome in {Stopped, StopFailed} && KeyOf(req.line) == Some(k))
    ensures k in Handle(req, jobs).jobs
  {
    StepFrame(req, jobs, k);
  }

  /** No double start: between two submissions under the same key there is
      always a stop that removed that key. */
  lemma NoDoubleStart<H>(reqs: seq<Request<H>>, jobs0: map<string, H>, k: string, i: nat, j: nat)
    requires i < j < |reqs|
    requires StartsAt(reqs, jobs0, i, k) && StartsAt(reqs, jobs0, j, k)
    ensures exists l :: i < l < j && StopsAt(reqs, jobs0, l, k)
  {
    StepFrame(reqs[i], JobsBefore(reqs, jobs0, i), k);
    assert k in JobsBefore(reqs, jobs0, i + 1);
    if forall l :: i + 1 <= l < j ==> !StopsAt(reqs, jobs0, l, k) {
      StaysRegistered(reqs, jobs0, k, i + 1, j);
      assert false;
    }
  }

  /** Every handle in the registry under a key that was not registered at
      the start is the handle of an earlier submission made under its key. */
  lemma {:induction false} RegisteredWasStarted<H>(reqs: seq<Request<H>>, jobs0: map<string, H>,
                                                   n: nat, k: string)
    requires n <= |reqs|
    requires k in JobsBefore(reqs, jobs0, n) && k !in jobs0
    ensures exists i :: 0 <= i < n && StartsAt(reqs, jobs0, i, k)
                        && JobsBefore(reqs, jobs0, n)[k] == reqs[i].handle
    decreases n
  {
    var before := JobsBefore(reqs, jobs0, n - 1);
    StepFrame(reqs[n - 1], before, k);
    if k in before && JobsBefore(reqs, jobs0, n)[k] == before[k] {
      RegisteredWasStarted(reqs, jobs0, n - 1, k);
    } else {
      assert StartsAt(reqs, jobs0, n - 1, k);
    }
  }

  /** Every handle in the registry is either the one its key held at the
      start, never disturbed, or the handle of an earlier submission made
      under its key; a key stopped and started again holds the handle of the
      new submission. */
  lemma {:induction false} HandleOrigin<H>(reqs: seq<Request<H>>, jobs0: map<string, H>,
                                           n: nat, k: string)
    requires n <= |reqs|
    requires k in JobsBefore(reqs, jobs0, n)
    ensures || (k in jobs0 && JobsBefore(reqs, jobs0, n)[k] == jobs0[k])
            || exists i :: 0 <= i < n && StartsAt(reqs, jobs0, i, k)
                           && JobsBefore(reqs, jobs0, n)[k] == reqs[i].handle
    decreases n
  {
    if n > 0 {
      var before := JobsBefore(reqs, jobs0, n - 1);
      StepFrame(reqs[n - 1], before, k);
      if k in before && JobsBefore(reqs, jobs0, n)[k] == before[k] {
        HandleOrigin(reqs, jobs0, n - 1, k);
      } else {
        assert StartsAt(reqs, jobs0, n - 1, k);
      }
    }
  }

  /** A stop is authoritative: even when the stored work could not be
      cancelled, the very next start for the same pair submits again on an
      idle machine. */
  lemma StopThenStart<H>(jobs: map<string, H>, folder: string, filename: string,
                         cancelled: bool, load: Sample, h1: H, h2: H)
    requires IsWord(folder) && IsWord(filename)
    requires JobKey(folder, filename) in jobs
    requires Available(load)
    ensures var stop := Handle(Request(Join(["stop", folder, filename]), load, h1, cancelled), jobs);
            var start := Handle(Request(Join(["start", folder, filename]), load, h2, false), stop.jobs);
      && stop.outcome == (if cancelled then Stopped else StopFailed)
      && JobKey(folder, filename) !in stop.jobs
      && start.outcome == Started
      && start.submitted == Some(Submission(folder, filename))
      && start.jobs == jobs[JobKey(folder, filename) := h2]
  {
    ParseJoin("stop", folder, filename);
    ParseJoin("start", folder, filename);
    var key := JobKey(folder, filename);
    var stop := Handle(Request(Join(["stop", folder, filename]), load, h1, cancelled), jobs);
    assert stop == Effect(jobs - {key}, if cancelled then Stopped else StopFailed,
                          None, false, Some(jobs[key]), true);
    var start := Handle(Request(Join(["start", folder, filename]), load, h2, false), stop.jobs);
    assert start == Effect((jobs - {key})[key := h2], Started,
                           Some(Submission(folder, filename)), true, None, true);
    assert (jobs - {key})[key := h2] == jobs[key := h2];
  }

  /** Because keys collide (see `KeyCollision`), a start for one pair is
      refused as already running while a different pair with the same key is
      registered, and nothing is submitted for it. */
  lemma CollidingStartRefused<H>(jobs: map<string, H>, f1: string, n1: string,
                                 f2: string, n2: string, load: Sample, h1: H, h2: H)
    requires IsWord(f1) && IsWord(n1) && IsWord(f2) && IsWord(n2)
    requires JobKey(f1, n1) == JobKey(f2, n2) && JobKey(f1, n1) !in jobs
    requires Available(load)
    ensures var first := Handle(Request(Join(["start", f1, n1]), load, h1, false), jobs);
            var second := Handle(Request(Join(["start", f2, n2]), load, h2, false), first.jobs);
      && first.outcome == Started
      && second.outcome == AlreadyRunning
      && second.submitted == None
      && second.jobs == jobs[JobKey(f1, n1) := h1]
  {
    SplitJoin(["start", f1, n1]);
    SplitJoin(["start", f2, n2]);
  }
}

=== FILE: scenarios.dfy ===
/** Worked command files for the dispatcher, each run against a concrete
    registry: the behaviour promised for a fresh start, a repeated start, a
    busy machine, a stop for an unknown job, a stop for a running job whose
    cancellation fails, a one-word file, and an unknown verb. */
module Scenarios {
  import opened Wrappers
  import opened Tokens
  import opened ResourceGate
  import opened Dispatch

  const Idle := Sample(10.0, 20.0)

  lemma ExampleKey()
    ensures JobKey("groupA", "job1") == "groupA_job1"
  {
  }

  lemma StartLineSplits()
    ensures Split("start groupA job1") == ["start", "groupA", "job1"]
    ensures Parse("start groupA job1") == Some(Command("start", "groupA", "job1"))
  {
    assert Join(["start", "groupA", "job1"]) == "start groupA job1";
    SplitJoin(["start", "groupA", "job1"]);
  }

  /** A fresh start on an idle machine registers the job under
      `groupA_job1`, submits (groupA, job1) once and consumes the file. */
  lemma FreshStart<H>(h: H)
    ensures var e := Handle(Request("start groupA job1", Idle, h, false), map[]);
      && e.outcome == Started
      && e.submitted == Some(Submission("groupA", "job1"))
      && e.jobs == map["groupA_job1" := h]
      && e.fileDeleted
  {
    StartLineSplits();
    ExampleKey();
  }

  /** The same start again while the job is registered is refused as already
      running: nothing is submitted, the gate is not sampled, and the file is
      still consumed. */
  lemma RepeatedStart<H>(h1: H, h2: H)
    ensures var e := Handle(Request("start groupA job1", Idle, h2, false), map["groupA_job1" := h1]);
      && e.outcome == AlreadyRunning
      && e.submitted == None
      && !e.gateSampled
      && e.jobs == map["groupA_job1" := h1]
      && e.fileDeleted
  {
    StartLineSplits();
    ExampleKey();
  }

  /** CPU sampled at 95%: the start is refused, nothing is submitted, and
      the file is still consumed. */
  lemma BusyStart<H>(h: H)
    ensures var e := Handle(Request("start groupA job1", Sample(95.0, 20.0), h, false), map[]);
      && e.outcome == ResourceUnavailable
      && e.submitted == None
      && e.jobs == map[]
      && e.fileDeleted
  {
    StartLineSplits();
  }

  lemma StopLineSplits()
    ensures Split("stop groupA job1") == ["stop", "groupA", "job1"]
    ensures Parse("stop groupA job1") == Some(Command("stop", "groupA", "job1"))
  {
    assert Join(["stop", "groupA", "job1"]) == "stop groupA job1";
    SplitJoin(["stop", "groupA", "job1"]);
  }

  /** A stop for a job that is not registered reports it as not found,
      changes nothing and consumes the file. */
  lemma StopUnknownJob<H>(h: H, other: map<string, H>)
    requires "groupA_job1" !in other
    ensures var e := Handle(Request("stop groupA job1", Idle, h, true), other);
      && e.outcome == NotFound
      && e.cancelAsked == None
      && e.jobs == other
      && e.fileDeleted
  {
    StopLineSplits();
    ExampleKey();
  }

  /** Handling a parsed stop for a registered key. */
  lemma StopRegistered<H>(req: Request<H>, jobs: map<string, H>, folder: string, filename: string)
    requires Parse(req.line) == Some(Command("stop", folder, filename))
    requires JobKey(folder, filename) in jobs
    ensures var key := JobKey(folder, filename);
      Handle(req, jobs) == Effect(jobs - {key}, if req.cancelled then Stopped else StopFailed,
                                  None, false, Some(jobs[key]), true)
  {
  }

  /** A stop whose cancellation fails still removes the registration. */
  lemma StopRunningJob<H>(h1: H, h2: H)
    ensures var e := Handle(Request("stop groupA job1", Idle, h2, false), map["groupA_job1" := h1]);
      && e.outcome == StopFailed
      && e.cancelAsked == Some(h1)
      && e.jobs == map[]
      && e.fileDeleted
  {
    var jobs := map["groupA_job1" := h1];
    var req := Request("stop groupA job1", Idle, h2, false);
    StopLineSplits();
    ExampleKey();
    StopRegistered(req, jobs, "groupA", "job1");
    assert jobs - {"groupA_job1"} == map[];
  }

  /** A one-word file is malformed: it is left in place and nothing
      changes. */
  lemma OneWordFileKept<H>(h: H, jobs: map<string, H>)
    ensures var e := Handle(Request("startonly", Idle, h, true), jobs);
      && e.outcome == Malformed
      && e.jobs == jobs
      && !e.fileDeleted
  {
    SplitOneWord("startonly");
  }

  /** A three-word file with a verb other than start or stop is consumed
      without touching the registry. */
  lemma UnknownVerbConsumed<H>(h: H, jobs: map<string, H>)
    ensures var e := Handle(Request("restart groupA job1", Idle, h, true), jobs);
      && e.outcome == UnknownVerb
      && e.jobs == jobs
      && e.submitted == None
      && e.fileDeleted
  {
    assert Join(["restart", "groupA", "job1"]) == "restart groupA job1";
    SplitJoin(["restart", "groupA", "job1"]);
  }
}

=== FILE: tokens.dfy ===
/** Python's argument-less `str.split()`: the command line is cut at every run
    of whitespace and empty pieces are dropped, so leading and trailing
    whitespace never produce tokens. */
module Tokens {

  /** The characters Python's `str.isspace` accepts, which is the set the
      argument-less `split` and `strip` break on. */
  predicate IsSpace(c: char)
  {
    || c == ' ' || c == '\t' || c == '\n' || c == '\r'
    || c == '\U{000B}' || c == '\U{000C}'
    || ('\U{001C}' <= c <= '\U{001F}')
    || c == '\U{0085}' || c == '\U{00A0}' || c == '\U{1680}'
    || ('\U{2000}' <= c <= '\U{200A}')
    || c == '\U{2028}' || c == '\U{2029}' || c == '\U{202F}'
    || c == '\U{205F}' || c == '\U{3000}'
  }

  /** A token: a non-empty run of non-whitespace characters. */
  predicate IsWord(w: string)
  {
    |w| > 0 && forall i :: 0 <= i < |w| ==> !IsSpace(w[i])
  }

  predicate AllSpace(s: string)
  {
    forall i :: 0 <= i < |s| ==> IsSpace(s[i])
  }

  /** Drops the leading whitespace of `s`. */
  function SkipSpace(s: string): (t: string)
    ensures |t| <= |s|
    ensures t == [] || !IsSpace(t[0])
  {
    if s != [] && IsSpace(s[0]) then SkipSpace(s[1..]) else s
  }

  /** What `SkipSpace` drops is a whitespace prefix and what it keeps is the
      rest of the line. */
  lemma {:induction false} SkipSpaceDropsPrefix(s: string)
    ensures var t := SkipSpace(s);
      t == s[|s| - |t|..] && AllSpace(s[..|s| - |t|])
    decreases |s|
  {
    if s != [] && IsSpace(s[0]) {
      SkipSpaceDropsPrefix(s[1..]);
      var t := SkipSpace(s);
      assert s[..|s| - |t|] == [s[0]] + s[1..][..|s| - 1 - |t|];
    }
  }

  /** Length of the longest whitespace-free prefix of `s`. */
  function WordLen(s: string): (n: nat)
    ensures n <= |s|
    ensures s != [] && !IsSpace(s[0]) ==> n > 0
  {
    if s == [] || IsSpace(s[0]) then 0 else 1 + WordLen(s[1..])
  }

  /** `WordLen` stops exactly at the first whitespace character. */
  lemma {:induction false} WordLenStopsAtSpace(s: string)
    ensures var n := WordLen(s);
      && (forall i :: 0 <= i < n ==> !IsSpace(s[i]))
      && (n == |s| || IsSpace(s[n]))
    decreases |s|
  {
    if s != [] && !IsSpace(s[0]) {
      WordLenStopsAtSpace(s[1..]);
      var n := WordLen(s);
      assert forall i :: 1 <= i < n ==> s[i] == s[1..][i - 1];
    }
  }

  /** The tokens of `s`, in order. */
  function Split(s: string): (r: seq<string>)
    ensures forall i :: 0 <= i < |r| ==> IsWord(r[i])
    decreases |s|
  {
    var t := SkipSpace(s);
    if t == [] then []
    else
      var n := WordLen(t);
      WordLenStopsAtSpace(t);
      [t[..n]] + Split(t[n..])
  }

  /** Tokens joined back with one blank between neighbours. */
  function Join(words: seq<string>): string
  {
    if words == [] then []
    else if |words| == 1 then words[0]
    else words[0] + " " + Join(words[1..])
  }

  /** Concatenation of a sequence of strings. */
  function Concat(words: seq<string>): string
  {
    if words == [] then [] else words[0] + Concat(words[1..])
  }

  /** The non-whitespace characters of `s`, in order. */
  function Ink(s: string): (r: string)
    ensures forall i :: 0 <= i < |r| ==> !IsSpace(r[i])
  {
    if s == [] then []
    else if IsSpace(s[0]) then Ink(s[1..])
    else [s[0]] + Ink(s[1..])
  }

  lemma {:induction false} InkAppend(a: string, b: string)
    ensures Ink(a + b) == Ink(a) + Ink(b)
    decreases |a|
  {
    if a == [] {
      assert a + b == b;
    } else {
      assert (a + b)[1..] == a[1..] + b;
      InkAppend(a[1..], b);
    }
  }

  lemma {:induction false} InkOfSpace(s: string)
    requires AllSpace(s)
    ensures Ink(s) == []
    decreases |s|
  {
    if s != [] {
      InkOfSpace(s[1..]);
    }
  }

  lemma {:induction false} InkOfWord(w: string)
    requires forall i :: 0 <= i < |w| ==> !IsSpace(w[i])
    ensures Ink(w) == w
    decreases |w|
  {
    if w != [] {
      InkOfWord(w[1..]);
      assert w == [w[0]] + w[1..];
    }
  }

  /** Splitting loses only whitespace: gluing the tokens back together gives
      exactly the non-whitespace characters of the line, in order. */
  lemma {:induction false} SplitKeepsInk(s: string)
    ensures Concat(Split(s)) == Ink(s)
    decreases |s|
  {
    var t := SkipSpace(s);
    var k := |s| - |t|;
    SkipSpaceDropsPrefix(s);
    assert s == s[..k] + t;
    InkAppend(s[..k], t);
    InkOfSpace(s[..k]);
    assert Ink(s) == Ink(t);
    if t != [] {
      var n := WordLen(t);
      var w, rest := t[..n], t[n..];
      WordLenStopsAtSpace(t);
      assert Split(s) == [w] + Split(rest);
      assert t == w + rest;
      InkAppend(w, rest);
      InkOfWord(w);
      SplitKeepsInk(rest);
      ConcatCons(w, Split(rest));
    }
  }

  lemma ConcatCons(w: string, ws: seq<string>)
    ensures Concat([w] + ws) == w + Concat(ws)
  {
    assert ([w] + ws)[1..] == ws;
  }

  /** A line has no tokens exactly when it is blank. */
  lemma SplitEmptyIffBlank(s: string)
    ensures Split(s) == [] <==> AllSpace(s)
  {
    var t := SkipSpace(s);
    var k := |s| - |t|;
    SkipSpaceDropsPrefix(s);
    assert s == s[..k] + t;
    if t != [] {
      assert s[k] == t[0];
    }
  }

  lemma {:induction false} WordLenOfWord(w: string, rest: string)
    requires forall i :: 0 <= i < |w| ==> !IsSpace(w[i])
    requires rest == [] || IsSpace(rest[0])
    ensures WordLen(w + rest) == |w|
    decreases |w|
  {
    if w == [] {
      assert w + rest == rest;
    } else {
      assert (w + rest)[1..] == w[1..] + rest;
      WordLenOfWord(w[1..], rest);
    }
  }

  /** Splitting a word followed by a whitespace-led (or empty) remainder
      yields that word and then the tokens of the remainder. */
  lemma SplitWordThen(w: string, rest: string)
    requires IsWord(w)
    requires rest == [] || IsSpace(rest[0])
    ensures Split(w + rest) == [w] + Split(rest)
  {
    var s := w + rest;
    assert SkipSpace(s) == s;
    WordLenOfWord(w, rest);
    assert s[..|w|] == w;
    assert s[|w|..] == rest;
  }

  /** Leading whitespace never changes the tokens. */
  lemma SplitSkipsSpace(c: char, s: string)
    requires IsSpace(c)
    ensures Split([c] + s) == Split(s)
  {
    assert ([c] + s)[1..] == s;
    assert SkipSpace([c] + s) == SkipSpace(s);
  }

  lemma JoinStep(w: string, tail: seq<string>)
    requires IsWord(w) && tail != []
    ensures Split(Join([w] + tail)) == [w] + Split(Join(tail))
  {
    var rest := Join(tail);
    assert ([w] + tail)[1..] == tail;
    assert Join([w] + tail) == w + ([' '] + rest);
    SplitWordThen(w, [' '] + rest);
    SplitSkipsSpace(' ', rest);
  }

  lemma SplitOneWord(w: string)
    requires IsWord(w)
    ensures Split(Join([w])) == [w]
  {
    assert Join([w]) == w + [];
    SplitWordThen(w, []);
  }

  /** Round trip: tokens joined with single blanks split back into the same
      tokens. */
  lemma {:induction false} SplitJoin(words: seq<string>)
    requires forall i :: 0 <= i < |words| ==> IsWord(words[i])
    ensures Split(Join(words)) == words
    decreases |words|
  {
    if words == [] {
    } else if |words| == 1 {
      assert words == [words[0]];
      SplitOneWord(words[0]);
    } else {
      var w, tail := words[0], words[1..];
      assert words == [w] + tail;
      JoinStep(w, tail);
      SplitJoin(tail);
    }
  }
}

=== FILE: wrappers.dfy ===
/** An optional value, shared by the dispatcher and intake models. */
module Wrappers {

  /** A value that may be absent: a command line that did not parse, a
      directory listing that could not be read. */
  datatype Option<+T> = None | Some(value: T)
}
